=== FILE: README.md ===
# Earnings-reversal pipeline core, modelled in Dafny

This project models three parts of the earnings-reversal research pipeline and
proves properties of them:

- **The NYSE trading calendar** (module `TradingCalendar`, `calendar.dfy`). It
  covers trading days, the N-th next and previous trading day, and the T0/T1/T2
  anchors of an earnings date. Dates are whole-day ordinals in the proleptic
  Gregorian numbering, where day 1 is 0001-01-01, a Monday. The holiday set is a
  parameter.
- **Steps 4 and 5 of the smoke-test pipeline.**
  - The event-window builder (module `EventWindows`, `windows.dfy`). It joins every
    earnings event to the daily bars at its three anchors through a
    (symbol, date) lookup and keeps the missing-bar counters.
  - The core features (module `Features`, `features.dfy`):
    R1 = close(T1)/close(T0) − 1 and Gap2 = open(T2)/close(T1) − 1.
- **The QA validators** (module `QaChecks`, `qa.dfy`). These are:
  - the date-ordering and OHLC-consistency data-quality checks;
  - the LONG/SHORT sign rule;
  - the trade arithmetic checks;
  - the unknown-session coverage warning;
  - the verdict, where issues fail the run and warnings never do.

Module `Handoff` (`handoff.dfy`) connects the two sides. Windows built by step 4,
once exported, never trip the date-ordering check. They never trip the OHLC check
either, provided the source bars are consistent. Module `Wrappers` holds
`Option`.

The calendar searches need no assumption on the holiday set to terminate. The
proof measure counts the holidays still ahead of, or behind, the search.

Points where the model follows what the code does:

- **T0 and T1 do not depend on the announcement session.** The QA checks expect a
  BMO/AMC session to be tracked (`src/qa/run_qa.py:80-82` and 256-260). The
  calendar and step 4 have no session handling at all. T0 is the earnings date, or the trading day before it when it is not a
  trading day. T1 is the next trading day after the earnings date. T2 is the next
  trading day after T1. `TradingCalendar.AnchorsAreConsecutive` proves that T1 is
  always the trading day right after T0.
- **The QA sign rule compares R1 with 0.** It checks LONG = R1 > 0 and Gap2 < 0,
  and SHORT = R1 < 0 and Gap2 > 0 (`src/qa/run_qa.py:11`, 160-175). There is no
  threshold. `QaChecks.ThresholdSignalsPass` shows that signals chosen with any
  threshold of at least 0 still pass the check.
- **Comparisons with an absent value are false.** pandas compares NaN as false.
  Where the model keeps a cell as `Option` (window prices, R1 and Gap2 of a
  signal, t1_close of a trade), a comparison with an absent value is false, so
  that cell alone never counts as a violation. Other cells are plain numbers:
  trade prices, returns and costs, and the prices of a daily bar. Tables are
  assumed to carry every column the checks index (see "Left out").

## Model

| member | source | states |
|---|---|---|
| `TradingCalendar.Weekday` | src/ingestion/trading_calendar.py:99 | The weekday of an ordinal date (Monday 0 … Sunday 6) always lies in 0..6. |
| `TradingCalendar.WeekdaySucc` | src/ingestion/trading_calendar.py:99 | Each day's weekday is the previous one's plus one, Sunday (6) wrapping round to Monday (0). |
| `TradingCalendar.WeekdayCalendar` | src/ingestion/trading_calendar.py:99 | The numbering is that of `date.weekday()`: 0001-01-01 (day 1) is a Monday and 2024-07-04 (day 739071) a Thursday, and weekdays repeat every seven days. |
| `TradingCalendar.IsTradingDay` | src/ingestion/trading_calendar.py:94-104 | A day trades exactly when it falls Monday to Friday and is not a holiday. |
| `TradingCalendar.TradingDaysSplit` | src/ingestion/trading_calendar.py:94-104 | The number of trading days in [lo, hi) is the sum of the counts of [lo, mid) and [mid, hi). |
| `TradingCalendar.TradingDayCounted` | src/ingestion/trading_calendar.py:94-104 | A trading day inside [lo, hi) makes the count of that interval positive. |
| `TradingCalendar.CountGrowsAtTradingDay` | src/ingestion/trading_calendar.py:94-104 | Extending an interval over a trading day raises its count by one. |
| `TradingCalendar.FiveSessionsPerWeek` | src/ingestion/trading_calendar.py:94-104 | Any seven consecutive days with no holiday hold exactly five trading days: weekends are never trading days and weekdays are. |
| `TradingCalendar.ForwardSlackShrinks` | src/ingestion/trading_calendar.py:121-124 | Stepping the forward search past a non-trading day strictly lowers its termination measure, so the loop always ends. |
| `TradingCalendar.BackwardSlackShrinks` | src/ingestion/trading_calendar.py:142-145 | Stepping the backward search past a non-trading day strictly lowers its measure. |
| `TradingCalendar.ForwardWalk` | src/ingestion/trading_calendar.py:119-125 | From count < offset, the walk stops on a later trading day; it has then seen exactly offset − count trading days. From count ≥ offset it returns the current day. |
| `TradingCalendar.BackwardWalk` | src/ingestion/trading_calendar.py:140-146 | The mirror of the forward walk: it stops on an earlier trading day with exactly offset − count trading days in between. |
| `TradingCalendar.NextTradingDay` | src/ingestion/trading_calendar.py:106-125 | Offset ≤ 0 returns d itself. Otherwise the result is a later trading day, and exactly `offset` trading days lie in (d, result]. |
| `TradingCalendar.PrevTradingDay` | src/ingestion/trading_calendar.py:127-146 | Offset ≤ 0 returns d itself. Otherwise the result is an earlier trading day, and exactly `offset` trading days lie in [result, d). |
| `TradingCalendar.NextTradingDayUnique` | src/ingestion/trading_calendar.py:106-125 | Any trading day r > d with exactly n trading days in (d, r] is the n-th next trading day. |
| `TradingCalendar.PrevTradingDayUnique` | src/ingestion/trading_calendar.py:127-146 | Any trading day r < d with exactly n trading days in [r, d) is the n-th previous trading day. |
| `TradingCalendar.NextTradingDayIsNearest` | src/ingestion/trading_calendar.py:106-125 | No trading day lies strictly between d and its next trading day. |
| `TradingCalendar.PrevTradingDayIsNearest` | src/ingestion/trading_calendar.py:127-146 | No trading day lies strictly between the previous trading day and d. |
| `TradingCalendar.NextTradingDayStep` | src/ingestion/trading_calendar.py:106-125 | Advancing k+1 trading days is advancing k and then one more, and the result grows strictly with k. |
| `TradingCalendar.PrevTradingDayStep` | src/ingestion/trading_calendar.py:127-146 | Going back k+1 trading days is going back k and then one more, and the result falls strictly with k. |
| `TradingCalendar.GetAnchors` | src/ingestion/trading_calendar.py:148-176 | t0 ≤ earnings date < t1 < t2, all three trading days. t0 equals the earnings date exactly when that is a trading day. No trading day falls in (t0, earnings date], in (earnings date, t1) or in (t1, t2). |
| `TradingCalendar.AnchorsAreConsecutive` | src/ingestion/trading_calendar.py:162-174 | T1 is the first trading day after T0, T0 the first one before T1, and T2 the second one after T0. |
| `TradingCalendar.NoTradingDayCounts` | src/ingestion/trading_calendar.py:94-104 | An interval with no trading day in it has a count of zero. |
| `TradingCalendar.IndependenceDayAnchors` | src/ingestion/trading_calendar.py:69 | With 2024-07-04 a holiday, its anchors are 2024-07-03, 2024-07-05 and 2024-07-08 (the weekend is skipped). |
| `EventWindows.BuildLookup` | src/pipeline/phase1_smoke_test.py:168-172 | The lookup's keys are exactly the table's (symbol, date) pairs, and each key holds the last row with that key, because later rows overwrite earlier ones. |
| `EventWindows.KeysOfAppend` | src/pipeline/phase1_smoke_test.py:169-172 | Appending a row adds exactly its key to the table's key set. |
| `EventWindows.LookupStep` | src/pipeline/phase1_smoke_test.py:171-172 | Storing the newest row under its key keeps every key's last row. |
| `EventWindows.LookupQuote` | src/pipeline/phase1_smoke_test.py:186-189 | A lookup yields absence exactly when the key is missing, and otherwise the prices and volume of the bar stored under that key. |
| `EventWindows.MakeWindow` | src/pipeline/phase1_smoke_test.py:179-222 | A window copies the event's symbol and date and carries its anchor dates, ordered t0 ≤ earnings date < t1 < t2. At each anchor it holds the stored bar's prices and volume, or absence exactly when that (symbol, date) is not in the lookup. |
| `EventWindows.MakeWindows` | src/pipeline/phase1_smoke_test.py:179-224 | One window per event, in event order. |
| `EventWindows.TallyCoverage` | src/pipeline/phase1_smoke_test.py:174-236 | The counters equal the number of windows missing each anchor's bar, and the number of windows with all three closes present. |
| `EventWindows.BuildEventWindows` | src/pipeline/phase1_smoke_test.py:160-236 | Nothing is built exactly when either table is empty. Otherwise the result has one window per event in order, built from the lookup of the bar table, and the coverage counters match the windows. |
| `EventWindows.CoverageBoundsUpTo` | src/pipeline/phase1_smoke_test.py:228-236 | Over any prefix, every counter is at most the prefix length. The complete windows are at least the windows minus the missing bars. |
| `EventWindows.CoverageBounds` | src/pipeline/phase1_smoke_test.py:228-236 | Complete windows and each missing count are at most the number of windows. Every window that is not complete misses at least one anchor. |
| `EventWindows.BuiltWindowDates` | src/pipeline/phase1_smoke_test.py:184 | A built window's three dates are trading days, T1 the next one after T0 and T2 the next one after T1. |
| `Features.Close` | src/pipeline/phase1_smoke_test.py:206-222 | A close is present exactly when the bar is, and is then the bar's close. |
| `Features.Open` | src/pipeline/phase1_smoke_test.py:255-256 | An open is present exactly when the bar is, and is then the bar's open. |
| `Features.SimpleReturn` | src/pipeline/phase1_smoke_test.py:250-256 | The return is present exactly when both prices are; then base·(1+r) = later, and r > 0 (r < 0) exactly when the price rose (fell). |
| `Features.FeatureOf` | src/pipeline/phase1_smoke_test.py:250-271 | The row keeps the window's keys and dates, and its t0_close, t1_close and t2_open columns carry those prices of the window (absent with the bar). R1 is present exactly when both T0 and T1 bars are, and takes close(T0) to close(T1). Gap2 is present exactly when both T1 and T2 bars are, and takes close(T1) to open(T2). |
| `Features.FeatureRows` | src/pipeline/phase1_smoke_test.py:250-272 | One feature row per window, in order. |
| `Features.TallyValid` | src/pipeline/phase1_smoke_test.py:274-278 | The counters are the numbers of rows with a present R1 and a present Gap2. |
| `Features.ComputeFeatures` | src/pipeline/phase1_smoke_test.py:242-279 | No table exactly when there is no window table or it is empty. Otherwise one row per window, and the valid counts match the rows. |
| `Features.ValidCountsUpTo` | src/pipeline/phase1_smoke_test.py:228-279 | Over any prefix, valid R1s are at most the windows with a T0 bar and at most those with a T1 bar, and at least the complete ones. Likewise for Gap2 with T1 and T2. |
| `Features.ValidCountsMatchCoverage` | src/pipeline/phase1_smoke_test.py:228-279 | The feature counts of step 5 are bounded by the coverage counts of step 4. Valid R1s ≤ windows − missing T0 and ≤ windows − missing T1; valid Gap2s ≤ windows − missing T2. Both are ≥ complete windows. |
| `QaChecks.DateOrderBroken` | src/qa/run_qa.py:89-92 | A row is counted as a violation exactly when it does not keep t0 ≤ t1 < t2. |
| `QaChecks.NoDateOrderBrokenIff` | src/qa/run_qa.py:89-92 | The number of rows breaking t0 ≤ t1 < t2 is zero exactly when every row keeps that order. |
| `QaChecks.DateOrderingFindings` | src/qa/run_qa.py:84-94 | No finding exactly when every row has t0 ≤ t1 < t2. Otherwise one finding carrying the number of violating rows, between 1 and the row count. |
| `QaChecks.OhlcBroken` | src/qa/run_qa.py:99-106 | An anchor's bar is counted as a violation exactly when it is fully priced and not consistent: low above open or close, or high below them. |
| `QaChecks.NoOhlcBrokenIff` | src/qa/run_qa.py:97-106 | The count of fully priced inconsistent bars at an anchor is zero exactly when every bar there is sound. |
| `QaChecks.OhlcFindings` | src/qa/run_qa.py:96-108 | For each anchor: no finding exactly when every fully priced bar there has low ≤ open, close ≤ high. Otherwise one finding with the number of violating rows. |
| `QaChecks.DataQualityFindings` | src/qa/run_qa.py:63-108 | Without a window table, nothing. With one, no finding exactly when every row keeps the date order and every anchor's bar is consistent. A date finding appears exactly when some rows break the order, and carries their number. An OHLC finding for an anchor appears exactly when some bars there are inconsistent, and carries their number. Only data-quality findings are produced. |
| `QaChecks.LongRuleBroken` | src/qa/run_qa.py:160-161 | Only LONG rows are flagged. With R1 and Gap2 present, a LONG row is flagged exactly when it fails R1 > 0 and Gap2 < 0. A row with both absent is never flagged. |
| `QaChecks.ShortRuleBroken` | src/qa/run_qa.py:169-170 | Only SHORT rows are flagged. With both values present, a SHORT row is flagged exactly when it fails R1 < 0 and Gap2 > 0. A row with both absent is never flagged. |
| `QaChecks.SignCountsZeroIff` | src/qa/run_qa.py:156-175 | The LONG (SHORT) violation count is zero exactly when no LONG (SHORT) row breaks its rule. |
| `QaChecks.SignalRuleFindings` | src/qa/run_qa.py:144-177 | A missing signal table is an issue. Otherwise no finding exactly when no LONG row has R1 ≤ 0 or Gap2 ≥ 0 and no SHORT row has R1 ≥ 0 or Gap2 ≤ 0. The LONG finding appears exactly when some LONG rows break the rule, and carries their number. The SHORT finding behaves the same way for SHORT rows. |
| `QaChecks.ThresholdSignalsPass` | src/qa/run_qa.py:156-175 | Signals chosen by a threshold rule (LONG needs R1 > threshold ≥ 0 and Gap2 < 0, SHORT the mirror image) raise no sign-rule finding. |
| `QaChecks.OtherLabelsNeverFlagged` | src/qa/run_qa.py:156-158 | Rows labelled neither LONG nor SHORT are never flagged. |
| `QaChecks.TargetMismatched` | src/qa/run_qa.py:195 | A trade mismatches only when its t1_close is present and differs from the target. A target equal to t1_close never mismatches. |
| `QaChecks.ExpectedHitGross` | src/qa/run_qa.py:214-218 | The expected gross return of a hit trade takes the entry to the target: entry·(1+g) = target for LONG, entry·(1−g) = target for any other label. |
| `QaChecks.NetMismatched` | src/qa/run_qa.py:233-234 | A net return equal to gross − cost_bps/10000 never mismatches, and a mismatching one differs from it. |
| `QaChecks.HitFindings` | src/qa/run_qa.py:199-224 | For each trade: an exit finding with that row, symbol and date exactly when it is a hit and exit differs from target. A return finding exactly when it is a hit and the gross return differs from the expected return (LONG (target−entry)/entry, otherwise (entry−target)/entry). |
| `QaChecks.NetFindings` | src/qa/run_qa.py:231-238 | A net-return finding for a trade exactly when its net differs from gross − cost_bps/10000 by more than the tolerance. |
| `QaChecks.TradeFindings` | src/qa/run_qa.py:180-240 | A missing or empty trade table raises nothing, and only trade-check findings are produced. |
| `QaChecks.TradeFindingsInOrder` | src/qa/run_qa.py:193-238 | The trade findings come in the order the checks run: the target finding, then the exit and return findings of hit trades, then the cost finding, then the net-return findings. |
| `QaChecks.TargetChecked` | src/qa/run_qa.py:193-197 | A target finding is present exactly when some trade's target differs from its t1_close, and it carries that number of trades. |
| `QaChecks.NetReturnChecked` | src/qa/run_qa.py:231-238 | Every trade, hit or not, gets a net-return finding exactly when its net return is off. |
| `QaChecks.HitTradesChecked` | src/qa/run_qa.py:199-224 | Hit trades get an exit finding and a return finding exactly when those values are off; non-hit trades get neither. |
| `QaChecks.CostConsistencyChecked` | src/qa/run_qa.py:226-229 | The cost finding appears exactly when the trades use more than one cost, and lists the distinct costs. |
| `QaChecks.CostFindingUnique` | src/qa/run_qa.py:226-229 | With several costs, the cost finding occurs exactly once. |
| `QaChecks.NoHitFindings` | src/qa/run_qa.py:199-224 | Hit trades that exit at their target with the expected gross return raise no hit-trade finding. |
| `QaChecks.NoNetFindings` | src/qa/run_qa.py:231-238 | Trades whose net matches gross minus cost raise no net finding. |
| `QaChecks.NoTargetMismatch` | src/qa/run_qa.py:195 | The mismatch count is at most the number of trades, and is zero exactly when no trade's target differs from its present t1_close. |
| `QaChecks.OneTargetMismatchFails` | src/qa/run_qa.py:193-197 | A single trade whose target differs from its t1_close by more than the tolerance puts the target finding into the trade check, so the run fails. |
| `QaChecks.ExactTradesPass` | src/qa/run_qa.py:180-240 | Trades that satisfy the simulator's equations exactly raise no trade finding. Those equations are: target = t1_close; a hit exits at the target with the matching gross return; net = gross − cost; one cost for all trades. |
| `QaChecks.CountLabelPositiveIff` | src/qa/run_qa.py:255-256 | The count of a label is positive exactly when some row carries it. |
| `QaChecks.CoverageWarnings` | src/qa/run_qa.py:243-263 | A warning exactly when some signal is labelled EXCLUDED_UNKNOWN_SESSION, carrying the number of such signals. |
| `QaChecks.MissingFileFindings` | src/qa/run_qa.py:278-284 | One issue per missing project file, in order. |
| `QaChecks.ExportFindings` | src/qa/run_qa.py:288-294 | One issue per export problem, in order. |
| `QaChecks.RunQa` | src/qa/run_qa.py:266-349 | The exit code is 0 or 1. It is 1 exactly when a project file is missing, an export is missing or empty, the signal table is missing, some LONG or SHORT row breaks the sign rule, or the trade check finds something. |
| `QaChecks.WarningsAreNotIssues` | src/qa/run_qa.py:298-335 | Data-quality and coverage findings are reported as warnings and never among the issues. |
| `QaChecks.DataQualityNeverFails` | src/qa/run_qa.py:298-306 | Replacing the window table by any other leaves the exit code unchanged: data quality only warns. |
| `Handoff.ExportCells` | src/qa/run_qa.py:97-100 | An exported anchor is fully priced exactly when the window holds a bar there, and its open, high, low and close cells are then that bar's prices. |
| `Handoff.ExportWindows` | src/pipeline/phase1_smoke_test.py:224-226 | One exported row per window, in order. |
| `Handoff.BuiltWindowsKeepDateOrder` | src/qa/run_qa.py:84-94 | The date-ordering check finds nothing in the windows step 4 builds. |
| `Handoff.BuiltWindowsKeepOhlc` | src/qa/run_qa.py:96-108 | When every stored bar has low ≤ open, close ≤ high, the OHLC check finds nothing at any anchor of the built windows. |

## Left out

- Network and file I/O are not modelled. This covers the market-data client
  (`src/ingestion/fmp_client.py`), steps 1–3 of the pipeline that fetch
  constituents, earnings and bars, CSV export, and reading the CSVs
  back. Tables are parameters, and a table that does not exist is `None`.
- The bundle builder (`src/qa/build_qa_bundle.py`) and the review script
  (`scripts/openai_pr_qa_review.py`) are not part of this model. They are reporting
  glue around external services.
- The required-file and export-file existence checks (`src/qa/run_qa.py:22-60`)
  come in as their results: a list of missing paths and a list of export problems.
  The file system is not modelled.
- The schema warnings of the data-quality check are not modelled. These are the
  fewer-than-5-tickers warning, the missing `session` column and the missing
  feature, signal and trade columns. Like every data-quality finding they only
  warn, so they cannot change the verdict (`QaChecks.DataQualityNeverFails`).
- The `"t1_close" in df.columns` guard of the target check is not modelled as a
  separate case. A trade whose t1_close cell is absent never mismatches, which is
  the same outcome for that row.
- The mean and standard deviation of R1 and of Gap2 computed after step 5
  (`src/pipeline/phase1_smoke_test.py:283-294`), and all console output, are not
  modelled.
- Absent trade numbers are not modelled. Entry, target, exit, gross, cost_bps
  and net are plain reals in a trade row. In the source, one absent cost_bps next
  to a present one makes `unique()` report two values, which raises the
  inconsistent-cost issue. An absent gross, net or cost makes that row's
  net-return comparison false.
- Absent bar prices are not modelled. A daily bar always has all five values, so
  a bar row with a null close cannot be written down. Step 4's complete count,
  which drops rows on the three closes, only sees missing bars here.
- Missing columns are not modelled. The checks index `t0_date`, `signal`,
  `cost_bps` and other columns directly, and a table without one aborts the
  whole run with a `KeyError`. The model assumes well-formed tables. So
  `QaChecks.DataQualityNeverFails` and `QaChecks.RunQa` speak only of runs that
  reach the verdict.
- Floating point is modelled as exact reals. NaN and infinity do not arise:
  absence is `None`.
- `Features.SimpleReturn` and `Features.FeatureOf` require positive base closes.
  `QaChecks.ExpectedHitGross` and the trade checks require a nonzero entry price
  on hit trades. The source would divide by zero there.
- The model has no upper or lower limit on dates. Python's date type overflows
  outside years 1–9999, which is not modelled.
- The literal NYSE holiday list (`src/ingestion/trading_calendar.py:16-85`) is a
  parameter. Only 2024-07-04 is used, in `TradingCalendar.IndependenceDayAnchors`.
- The `pd.Timestamp` normalisation at the top of each calendar method is not
  modelled, because dates are already whole days here.
- The session-aware anchors (BMO/AMC), the signal classifier and the trade
  simulator are not modelled, because the code does not implement them. The QA
  checks of their outputs are modelled.

=== FILE: calendar.dfy ===
/**
  The exchange trading-day calendar: which calendar days are trading sessions, and
  the searches for the n-th session after or before a day, plus the T0/T1/T2 anchors
  of an earnings event.

  Dates are day ordinals in the proleptic Gregorian calendar with 0001-01-01 as day 1,
  the numbering of Python's `date.toordinal()`. The holiday list is a parameter.
*/
module TradingCalendar {

  type Date = int

  /** Day of the week, Monday = 0 ... Sunday = 6, as Python's `date.weekday()`. */
  function Weekday(d: Date): (w: int)
    ensures 0 <= w < 7
  {
    (d + 6) % 7
  }

  predicate IsWeekend(d: Date) {
    Weekday(d) >= 5
  }

  /** A session day: neither Saturday/Sunday nor an exchange holiday. */
  predicate IsTradingDay(holidays: set<Date>, d: Date)
    ensures IsTradingDay(holidays, d) <==> Weekday(d) < 5 && d !in holidays
  {
    if IsWeekend(d) then false
    else if d in holidays then false
    else true
  }

  /** The weekday advances by one each day, Sunday wrapping round to Monday. */
  lemma WeekdaySucc(d: Date)
    ensures Weekday(d + 1) == if Weekday(d) == 6 then 0 else Weekday(d) + 1
  {
  }

  /**
    The numbering agrees with the Gregorian calendar: day 1 (0001-01-01) is a Monday,
    day 739071 (2024-07-04) a Thursday, and weekdays repeat every seven days.
  */
  lemma WeekdayCalendar(d: Date)
    ensures Weekday(1) == 0
    ensures Weekday(739071) == 3
    ensures Weekday(d + 7) == Weekday(d)
  {
  }

  /** Number of trading days in the half-open range [lo, hi). */
  function TradingDaysIn(holidays: set<Date>, lo: Date, hi: Date): nat
    decreases hi - lo
  {
    if hi <= lo then 0
    else (if IsTradingDay(holidays, lo) then 1 else 0) + TradingDaysIn(holidays, lo + 1, hi)
  }

  /** Counting over adjacent ranges adds up. */
  lemma {:induction false} TradingDaysSplit(holidays: set<Date>, lo: Date, mid: Date, hi: Date)
    requires lo <= mid <= hi
    ensures TradingDaysIn(holidays, lo, hi)
         == TradingDaysIn(holidays, lo, mid) + TradingDaysIn(holidays, mid, hi)
    decreases mid - lo
  {
    if lo < mid {
      TradingDaysSplit(holidays, lo + 1, mid, hi);
    }
  }

  /** A trading day inside a range is counted by it. */
  lemma TradingDayCounted(holidays: set<Date>, lo: Date, x: Date, hi: Date)
    requires lo <= x < hi && IsTradingDay(holidays, x)
    ensures TradingDaysIn(holidays, lo, hi) >= 1
  {
    TradingDaysSplit(holidays, lo, x, hi);
  }

  /** Extending a range past a trading day strictly increases the count. */
  lemma CountGrowsAtTradingDay(holidays: set<Date>, lo: Date, a: Date, b: Date)
    requires lo <= a + 1 && a < b && IsTradingDay(holidays, b)
    ensures TradingDaysIn(holidays, lo, a + 1) < TradingDaysIn(holidays, lo, b + 1)
  {
    TradingDaysSplit(holidays, lo, a + 1, b + 1);
    TradingDayCounted(holidays, a + 1, b, b + 1);
  }

  /** With no holiday in a week-long range, exactly five of its seven days trade. */
  lemma {:induction false} FiveSessionsPerWeek(holidays: set<Date>, d: Date)
    requires forall x :: d <= x < d + 7 ==> x !in holidays
    ensures TradingDaysIn(holidays, d, d + 7) == 5
  {
    WeekdaySucc(d);
    WeekdaySucc(d + 1);
    WeekdaySucc(d + 2);
    WeekdaySucc(d + 3);
    WeekdaySucc(d + 4);
    WeekdaySucc(d + 5);
    assert d !in holidays && d + 1 !in holidays && d + 2 !in holidays && d + 3 !in holidays;
    assert d + 4 !in holidays && d + 5 !in holidays && d + 6 !in holidays;
    assert TradingDaysIn(holidays, d + 6, d + 7) == (if IsTradingDay(holidays, d + 6) then 1 else 0);
    assert TradingDaysIn(holidays, d + 5, d + 7) == (if IsTradingDay(holidays, d + 5) then 1 else 0) + TradingDaysIn(holidays, d + 6, d + 7);
    assert TradingDaysIn(holidays, d + 4, d + 7) == (if IsTradingDay(holidays, d + 4) then 1 else 0) + TradingDaysIn(holidays, d + 5, d + 7);
    assert TradingDaysIn(holidays, d + 3, d + 7) == (if IsTradingDay(holidays, d + 3) then 1 else 0) + TradingDaysIn(holidays, d + 4, d + 7);
    assert TradingDaysIn(holidays, d + 2, d + 7) == (if IsTradingDay(holidays, d + 2) then 1 else 0) + TradingDaysIn(holidays, d + 3, d + 7);
    assert TradingDaysIn(holidays, d + 1, d + 7) == (if IsTradingDay(holidays, d + 1) then 1 else 0) + TradingDaysIn(holidays, d + 2, d + 7);
  }

  // ---------------------------------------------------------------------------
  // Termination of the searches. Each day a search passes over is a weekend day or
  // one of the finitely many holidays still ahead of it (behind it, searching back).

  /** Holidays on or after `d`. */
  ghost function HolidaysFrom(holidays: set<Date>, d: Date): set<Date> {
    set x | x in holidays && x >= d
  }

  /** Holidays on or before `d`. */
  ghost function HolidaysUntil(holidays: set<Date>, d: Date): set<Date> {
    set x | x in holidays && x <= d
  }

  /** An upper bound on the days a forward search probing `d` next may still take. */
  ghost function ForwardSlack(holidays: set<Date>, d: Date): nat
  {
    7 * |HolidaysFrom(holidays, d)| + (7 - Weekday(d)) % 7
  }

  /** An upper bound on the days a backward search probing `d` next may still take. */
  ghost function BackwardSlack(holidays: set<Date>, d: Date): nat
  {
    7 * |HolidaysUntil(holidays, d)| + Weekday(d)
  }

  lemma ForwardSlackShrinks(holidays: set<Date>, d: Date)
    requires !IsTradingDay(holidays, d)
    ensures ForwardSlack(holidays, d + 1) < ForwardSlack(holidays, d)
  {
    WeekdaySucc(d);
    if d in holidays {
      assert HolidaysFrom(holidays, d + 1) == HolidaysFrom(holidays, d) - {d};
    } else {
      assert HolidaysFrom(holidays, d + 1) == HolidaysFrom(holidays, d);
    }
  }

  lemma BackwardSlackShrinks(holidays: set<Date>, d: Date)
    requires !IsTradingDay(holidays, d)
    ensures BackwardSlack(holidays, d - 1) < BackwardSlack(holidays, d)
  {
    WeekdaySucc(d - 1);
    if d in holidays {
      assert HolidaysUntil(holidays, d - 1) == HolidaysUntil(holidays, d) - {d};
    } else {
      assert HolidaysUntil(holidays, d - 1) == HolidaysUntil(holidays, d);
    }
  }

  // ---------------------------------------------------------------------------
  // The searches.

  /**
    The `while count < offset` loop of the forward search: every step moves one
    calendar day ahead and counts the day if it is a trading day.
  */
  function ForwardWalk(holidays: set<Date>, current: Date, count: int, offset: int): (r: Date)
    ensures count >= offset ==> r == current
    ensures count < offset ==>
      && current < r
      && IsTradingDay(holidays, r)
      && TradingDaysIn(holidays, current + 1, r + 1) == offset - count
    decreases offset - count, ForwardSlack(holidays, current + 1)
  {
    if count >= offset then current
    else
      var next := current + 1;
      if IsTradingDay(holidays, next) then
        ForwardWalk(holidays, next, count + 1, offset)
      else
        ForwardSlackShrinks(holidays, next);
        ForwardWalk(holidays, next, count, offset)
  }

  /** The backward twin of `ForwardWalk`: one calendar day back per step. */
  function BackwardWalk(holidays: set<Date>, current: Date, count: int, offset: int): (r: Date)
    ensures count >= offset ==> r == current
    ensures count < offset ==>
      && r < current
      && IsTradingDay(holidays, r)
      && TradingDaysIn(holidays, r, current) == offset - count
    decreases offset - count, BackwardSlack(holidays, current - 1)
  {
    if count >= offset then current
    else
      var prev := current - 1;
      if IsTradingDay(holidays, prev) then
        var r := BackwardWalk(holidays, prev, count + 1, offset);
        TradingDaysSplit(holidays, r, prev, current);
        r
      else
        BackwardSlackShrinks(holidays, prev);
        var r := BackwardWalk(holidays, prev, count, offset);
        TradingDaysSplit(holidays, r, prev, current);
        r
  }

  /**
    The `offset`-th trading day after `d`: a trading day later than `d` with exactly
    `offset` trading days in (d, result]. An offset of zero or less returns `d`.
  */
  function NextTradingDay(holidays: set<Date>, d: Date, offset: int): (r: Date)
    ensures offset <= 0 ==> r == d
    ensures offset >= 1 ==>
      d < r && IsTradingDay(holidays, r) && TradingDaysIn(holidays, d + 1, r + 1) == offset
  {
    ForwardWalk(holidays, d, 0, offset)
  }

  /**
    The `offset`-th trading day before `d`: a trading day earlier than `d` with exactly
    `offset` trading days in [result, d). An offset of zero or less returns `d`.
  */
  function PrevTradingDay(holidays: set<Date>, d: Date, offset: int): (r: Date)
    ensures offset <= 0 ==> r == d
    ensures offset >= 1 ==>
      r < d && IsTradingDay(holidays, r) && TradingDaysIn(holidays, r, d) == offset
  {
    BackwardWalk(holidays, d, 0, offset)
  }

  // ---------------------------------------------------------------------------
  // What characterises the searches.

  /** The forward search result is the only day with its defining properties. */
  lemma NextTradingDayUnique(holidays: set<Date>, d: Date, n: int, r: Date)
    requires n >= 1 && d < r && IsTradingDay(holidays, r)
    requires TradingDaysIn(holidays, d + 1, r + 1) == n
    ensures r == NextTradingDay(holidays, d, n)
  {
    var s := NextTradingDay(holidays, d, n);
    if r < s {
      CountGrowsAtTradingDay(holidays, d + 1, r, s);
    } else if s < r {
      CountGrowsAtTradingDay(holidays, d + 1, s, r);
    }
  }

  /** The backward search result is the only day with its defining properties. */
  lemma PrevTradingDayUnique(holidays: set<Date>, d: Date, n: int, r: Date)
    requires n >= 1 && r < d && IsTradingDay(holidays, r)
    requires TradingDaysIn(holidays, r, d) == n
    ensures r == PrevTradingDay(holidays, d, n)
  {
    var s := PrevTradingDay(holidays, d, n);
    if r < s {
      TradingDaysSplit(holidays, r, s, d);
      TradingDayCounted(holidays, r, r, s);
    } else if s < r {
      TradingDaysSplit(holidays, s, r, d);
      TradingDayCounted(holidays, s, s, r);
    }
  }

  /** No trading day lies strictly between `d` and the next trading day. */
  lemma NextTradingDayIsNearest(holidays: set<Date>, d: Date)
    ensures forall x :: d < x < NextTradingDay(holidays, d, 1) ==> !IsTradingDay(holidays, x)
  {
    var r := NextTradingDay(holidays, d, 1);
    forall x | d < x < r && IsTradingDay(holidays, x)
      ensures false
    {
      CountGrowsAtTradingDay(holidays, d + 1, d, x);
      CountGrowsAtTradingDay(holidays, d + 1, x, r);
    }
  }

  /** No trading day lies strictly between the previous trading day and `d`. */
  lemma PrevTradingDayIsNearest(holidays: set<Date>, d: Date)
    ensures forall x :: PrevTradingDay(holidays, d, 1) < x < d ==> !IsTradingDay(holidays, x)
  {
    var r := PrevTradingDay(holidays, d, 1);
    forall x | r < x < d && IsTradingDay(holidays, x)
      ensures false
    {
      TradingDaysSplit(holidays, r, r + 1, d);
      TradingDayCounted(holidays, r + 1, x, d);
    }
  }

  /** Searching k + 1 days ahead is searching k days ahead, then one more; strictly later. */
  lemma NextTradingDayStep(holidays: set<Date>, d: Date, k: nat)
    ensures NextTradingDay(holidays, d, k + 1)
         == NextTradingDay(holidays, NextTradingDay(holidays, d, k), 1)
    ensures NextTradingDay(holidays, d, k) < NextTradingDay(holidays, d, k + 1)
  {
    var r := NextTradingDay(holidays, d, k);
    var s := NextTradingDay(holidays, r, 1);
    if k >= 1 {
      TradingDaysSplit(holidays, d + 1, r + 1, s + 1);
      NextTradingDayUnique(holidays, d, k + 1, s);
    }
  }

  /** Searching k + 1 days back is searching k days back, then one more; strictly earlier. */
  lemma PrevTradingDayStep(holidays: set<Date>, d: Date, k: nat)
    ensures PrevTradingDay(holidays, d, k + 1)
         == PrevTradingDay(holidays, PrevTradingDay(holidays, d, k), 1)
    ensures PrevTradingDay(holidays, d, k + 1) < PrevTradingDay(holidays, d, k)
  {
    var r := PrevTradingDay(holidays, d, k);
    var s := PrevTradingDay(holidays, r, 1);
    if k >= 1 {
      TradingDaysSplit(holidays, s, r, d);
      PrevTradingDayUnique(holidays, d, k + 1, s);
    }
  }

  // ---------------------------------------------------------------------------
  // The T0/T1/T2 anchors of an earnings event.

  datatype Anchors = Anchors(t0: Date, t1: Date, t2: Date)

  /** Names of the three anchors, as the column prefixes t0, t1 and t2. */
  datatype Anchor = T0 | T1 | T2

  /**
    T0 is the earnings date when it trades, else the trading day before it; T1 is the
    trading day after the earnings date (not after T0); T2 is the trading day after T1.
  */
  function GetAnchors(holidays: set<Date>, earningsDate: Date): (a: Anchors)
    ensures a.t0 == earningsDate <==> IsTradingDay(holidays, earningsDate)
    ensures a.t0 <= earningsDate < a.t1 < a.t2
    ensures IsTradingDay(holidays, a.t0) && IsTradingDay(holidays, a.t1) && IsTradingDay(holidays, a.t2)
    ensures forall x :: a.t0 < x <= earningsDate ==> !IsTradingDay(holidays, x)
    ensures forall x :: earningsDate < x < a.t1 ==> !IsTradingDay(holidays, x)
    ensures forall x :: a.t1 < x < a.t2 ==> !IsTradingDay(holidays, x)
  {
    var t0 := if IsTradingDay(holidays, earningsDate) then earningsDate
              else PrevTradingDay(holidays, earningsDate, 1);
    var t1 := NextTradingDay(holidays, earningsDate, 1);
    var t2 := NextTradingDay(holidays, t1, 1);
    PrevTradingDayIsNearest(holidays, earningsDate);
    NextTradingDayIsNearest(holidays, earningsDate);
    NextTradingDayIsNearest(holidays, t1);
    Anchors(t0, t1, t2)
  }

  /** T1 is the next trading day after T0, and T0 the previous one before T1. */
  lemma AnchorsAreConsecutive(holidays: set<Date>, earningsDate: Date)
    ensures GetAnchors(holidays, earningsDate).t1
         == NextTradingDay(holidays, GetAnchors(holidays, earningsDate).t0, 1)
    ensures GetAnchors(holidays, earningsDate).t0
         == PrevTradingDay(holidays, GetAnchors(holidays, earningsDate).t1, 1)
    ensures GetAnchors(holidays, earningsDate).t2
         == NextTradingDay(holidays, GetAnchors(holidays, earningsDate).t0, 2)
  {
    var a := GetAnchors(holidays, earningsDate);
    NoTradingDayCounts(holidays, a.t0 + 1, a.t1);
    TradingDaysSplit(holidays, a.t0 + 1, a.t1, a.t1 + 1);
    NextTradingDayUnique(holidays, a.t0, 1, a.t1);
    TradingDaysSplit(holidays, a.t0, a.t0 + 1, a.t1);
    PrevTradingDayUnique(holidays, a.t1, 1, a.t0);
    NextTradingDayStep(holidays, a.t0, 1);
  }

  /** A range holding no trading day counts zero. */
  lemma {:induction false} NoTradingDayCounts(holidays: set<Date>, lo: Date, hi: Date)
    requires forall x :: lo <= x < hi ==> !IsTradingDay(holidays, x)
    ensures TradingDaysIn(holidays, lo, hi) == 0
    decreases hi - lo
  {
    if lo < hi {
      NoTradingDayCounts(holidays, lo + 1, hi);
    }
  }

  /** Independence Day 2024 (a Thursday, day 739071) as the only holiday. */
  lemma IndependenceDayAnchors()
    ensures GetAnchors({739071}, 739071) == Anchors(739070, 739072, 739075)
  {
    var h := {739071};
    assert Weekday(739071) == 3;
    var a := GetAnchors(h, 739071);
    assert IsTradingDay(h, 739070) && IsTradingDay(h, 739072);
    PrevTradingDayUnique(h, 739071, 1, 739070);
    NextTradingDayUnique(h, 739071, 1, 739072);
    assert !IsTradingDay(h, 739073) && !IsTradingDay(h, 739074) && IsTradingDay(h, 739075);
    NextTradingDayUnique(h, 739072, 1, 739075);
  }
}

=== FILE: features.dfy ===
/**
  Step 5 of the smoke-test pipeline: the core features of every event window,
  R1 = close(T1) / close(T0) - 1 and Gap2 = open(T2) / close(T1) - 1, with absence
  propagated and never defaulted.
*/
module Features {
  import opened Wrappers
  import opened TradingCalendar
  import opened EventWindows

  /** One row of the core feature table. */
  datatype FeatureRow = FeatureRow(
    symbol: string,
    earningsDate: Date,
    t0Date: Date,
    t1Date: Date,
    t2Date: Date,
    t0Close: Option<real>,
    t1Close: Option<real>,
    t2Open: Option<real>,
    r1: Option<real>,
    gap2: Option<real>)

  datatype FeatureTable = FeatureTable(rows: seq<FeatureRow>, validR1: nat, validGap2: nat)

  function Close(q: Option<Quote>): (c: Option<real>)
    ensures c.Some? <==> q.Some?
    ensures q.Some? ==> c == Some(q.value.close)
  {
    match q
    case None => None
    case Some(v) => Some(v.close)
  }

  function Open(q: Option<Quote>): (o: Option<real>)
    ensures o.Some? <==> q.Some?
    ensures q.Some? ==> o == Some(q.value.open)
  {
    match q
    case None => None
    case Some(v) => Some(v.open)
  }

  predicate Positive(x: Option<real>) {
    x.Some? ==> x.value > 0.0
  }

  /** The prices a window's features divide by are positive where present. */
  predicate HasPositiveBases(w: EventWindow) {
    Positive(Close(w.t0)) && Positive(Close(w.t1))
  }

  /**
    The simple return from `base` to `later`: absent when either price is absent;
    otherwise the r with base * (1 + r) == later, whose sign is that of the move.
  */
  function SimpleReturn(later: Option<real>, base: Option<real>): (r: Option<real>)
    requires Positive(base)
    ensures r.Some? <==> later.Some? && base.Some?
    ensures r.Some? ==> base.value * (1.0 + r.value) == later.value
    ensures r.Some? ==> (r.value > 0.0 <==> later.value > base.value)
    ensures r.Some? ==> (r.value < 0.0 <==> later.value < base.value)
  {
    if later.None? || base.None? then None
    else Some(later.value / base.value - 1.0)
  }

  /** The feature row of one window: its keys, dates and three prices, R1 and Gap2. */
  function FeatureOf(w: EventWindow): (f: FeatureRow)
    requires HasPositiveBases(w)
    ensures f.symbol == w.symbol && f.earningsDate == w.earningsDate
    ensures f.t0Date == w.t0Date && f.t1Date == w.t1Date && f.t2Date == w.t2Date
    ensures f.t0Close == Close(w.t0) && f.t1Close == Close(w.t1) && f.t2Open == Open(w.t2)
    ensures f.r1.Some? <==> w.t0.Some? && w.t1.Some?
    ensures f.r1.Some? ==> w.t0.value.close * (1.0 + f.r1.value) == w.t1.value.close
    ensures f.gap2.Some? <==> w.t1.Some? && w.t2.Some?
    ensures f.gap2.Some? ==> w.t1.value.close * (1.0 + f.gap2.value) == w.t2.value.open
  {
    FeatureRow(
      w.symbol, w.earningsDate, w.t0Date, w.t1Date, w.t2Date,
      Close(w.t0), Close(w.t1), Open(w.t2),
      SimpleReturn(Close(w.t1), Close(w.t0)),
      SimpleReturn(Open(w.t2), Close(w.t1)))
  }

  /** Number of rows among the first `n` with a present R1. */
  function R1UpTo(rows: seq<FeatureRow>, n: nat): nat
    requires n <= |rows|
  {
    if n == 0 then 0 else R1UpTo(rows, n - 1) + (if rows[n - 1].r1.Some? then 1 else 0)
  }

  /** Number of rows among the first `n` with a present Gap2. */
  function Gap2UpTo(rows: seq<FeatureRow>, n: nat): nat
    requires n <= |rows|
  {
    if n == 0 then 0 else Gap2UpTo(rows, n - 1) + (if rows[n - 1].gap2.Some? then 1 else 0)
  }

  function CountPresentR1(rows: seq<FeatureRow>): nat {
    R1UpTo(rows, |rows|)
  }

  function CountPresentGap2(rows: seq<FeatureRow>): nat {
    Gap2UpTo(rows, |rows|)
  }

  /** One feature row per window, in order. */
  function FeatureRows(windows: seq<EventWindow>): (rows: seq<FeatureRow>)
    requires forall i :: 0 <= i < |windows| ==> HasPositiveBases(windows[i])
    ensures |rows| == |windows|
    ensures forall i :: 0 <= i < |windows| ==> rows[i] == FeatureOf(windows[i])
  {
    seq(|windows|, i requires 0 <= i < |windows| => FeatureOf(windows[i]))
  }

  /** The valid-value counters, tallied row by row. */
  method TallyValid(rows: seq<FeatureRow>) returns (validR1: nat, validGap2: nat)
    ensures validR1 == CountPresentR1(rows)
    ensures validGap2 == CountPresentGap2(rows)
  {
    validR1, validGap2 := 0, 0;
    var i := 0;
    while i < |rows|
      invariant 0 <= i <= |rows|
      invariant validR1 == R1UpTo(rows, i)
      invariant validGap2 == Gap2UpTo(rows, i)
    {
      validR1 := validR1 + (if rows[i].r1.Some? then 1 else 0);
      validGap2 := validGap2 + (if rows[i].gap2.Some? then 1 else 0);
      i := i + 1;
    }
  }

  /**
    Step 5: no feature table without windows; otherwise one row per window, in
    order, and the numbers of present R1 and Gap2 values.
  */
  method ComputeFeatures(batch: Option<WindowBatch>) returns (r: Option<FeatureTable>)
    requires batch.Some? ==> forall i :: 0 <= i < |batch.value.windows| ==> HasPositiveBases(batch.value.windows[i])
    ensures r.None? <==> batch.None? || |batch.value.windows| == 0
    ensures r.Some? ==>
      && |r.value.rows| == |batch.value.windows|
      && (forall i :: 0 <= i < |r.value.rows| ==> r.value.rows[i] == FeatureOf(batch.value.windows[i]))
      && r.value.validR1 == CountPresentR1(r.value.rows)
      && r.value.validGap2 == CountPresentGap2(r.value.rows)
  {
    if batch.None? || |batch.value.windows| == 0 {
      return None;
    }
    var rows := FeatureRows(batch.value.windows);
    var validR1, validGap2 := TallyValid(rows);
    return Some(FeatureTable(rows, validR1, validGap2));
  }

  lemma {:induction false} ValidCountsUpTo(ws: seq<EventWindow>, rows: seq<FeatureRow>, n: nat)
    requires n <= |ws| == |rows|
    requires forall i :: 0 <= i < |ws| ==> HasPositiveBases(ws[i]) && rows[i] == FeatureOf(ws[i])
    ensures R1UpTo(rows, n) <= n - MissingUpTo(ws, T0, n)
    ensures R1UpTo(rows, n) <= n - MissingUpTo(ws, T1, n)
    ensures Gap2UpTo(rows, n) <= n - MissingUpTo(ws, T2, n)
    ensures R1UpTo(rows, n) >= CompleteUpTo(ws, n) && Gap2UpTo(rows, n) >= CompleteUpTo(ws, n)
  {
    if n > 0 {
      ValidCountsUpTo(ws, rows, n - 1);
    }
  }

  /**
    A present R1 needs both the T0 and the T1 bar and a present Gap2 the T1 and T2
    bars, so the valid counts lie between the complete windows and the bars found.
  */
  lemma ValidCountsMatchCoverage(ws: seq<EventWindow>, rows: seq<FeatureRow>)
    requires |rows| == |ws|
    requires forall i :: 0 <= i < |ws| ==> HasPositiveBases(ws[i]) && rows[i] == FeatureOf(ws[i])
    ensures CountPresentR1(rows) <= |ws| - CountMissing(ws, T0)
    ensures CountPresentR1(rows) <= |ws| - CountMissing(ws, T1)
    ensures CountPresentGap2(rows) <= |ws| - CountMissing(ws, T2)
    ensures CountPresentR1(rows) >= CountComplete(ws) && CountPresentGap2(rows) >= CountComplete(ws)
  {
    ValidCountsUpTo(ws, rows, |ws|);
  }
}

=== FILE: handoff.dfy ===
/**
  From the pipeline's event windows to the rows the QA check reads back: the window
  table is exported cell by cell, and windows the pipeline builds never trip the
  date-ordering check, nor the OHLC check when the source bars are consistent.
*/
module Handoff {
  import opened Wrappers
  import opened TradingCalendar
  import EventWindows
  import QaChecks

  function ExportCells(q: Option<EventWindows.Quote>): (c: QaChecks.PriceCells)
    ensures QaChecks.FullyPriced(c) <==> q.Some?
    ensures q.Some? ==>
      && c.open == Some(q.value.open) && c.high == Some(q.value.high)
      && c.low == Some(q.value.low) && c.close == Some(q.value.close)
  {
    match q
    case None => QaChecks.PriceCells(None, None, None, None)
    case Some(v) => QaChecks.PriceCells(Some(v.open), Some(v.high), Some(v.low), Some(v.close))
  }

  /** The exported row of one window: its dates and twelve price cells. */
  function ExportWindow(w: EventWindows.EventWindow): QaChecks.WindowRow {
    QaChecks.WindowRow(w.t0Date, w.t1Date, w.t2Date, ExportCells(w.t0), ExportCells(w.t1), ExportCells(w.t2))
  }

  function ExportWindows(ws: seq<EventWindows.EventWindow>): (rows: seq<QaChecks.WindowRow>)
    ensures |rows| == |ws|
    ensures forall i :: 0 <= i < |ws| ==> rows[i] == ExportWindow(ws[i])
  {
    seq(|ws|, i requires 0 <= i < |ws| => ExportWindow(ws[i]))
  }

  /** A bar passes the OHLC check once exported: low <= open, close <= high. */
  predicate SoundBar(b: EventWindows.Bar) {
    QaChecks.OhlcSound(ExportCells(Some(EventWindows.QuoteOf(b))))
  }

  /** The date-ordering check finds nothing in the windows the pipeline builds. */
  lemma BuiltWindowsKeepDateOrder(holidays: set<Date>, lookup: map<EventWindows.BarKey, EventWindows.Bar>,
                                  events: seq<EventWindows.EarningsEvent>)
    ensures QaChecks.DateOrderingFindings(ExportWindows(EventWindows.MakeWindows(holidays, lookup, events))) == []
  {
    var ws := EventWindows.MakeWindows(holidays, lookup, events);
    var rows := ExportWindows(ws);
    forall i | 0 <= i < |rows|
      ensures rows[i].t0Date <= rows[i].t1Date < rows[i].t2Date
    {
      assert rows[i] == ExportWindow(ws[i]);
    }
  }

  /** With consistent source bars, the OHLC check finds nothing at any anchor. */
  lemma BuiltWindowsKeepOhlc(holidays: set<Date>, lookup: map<EventWindows.BarKey, EventWindows.Bar>,
                             events: seq<EventWindows.EarningsEvent>, p: Anchor)
    requires forall k :: k in lookup ==> SoundBar(lookup[k])
    ensures QaChecks.OhlcFindings(ExportWindows(EventWindows.MakeWindows(holidays, lookup, events)), p) == []
  {
    var ws := EventWindows.MakeWindows(holidays, lookup, events);
    var rows := ExportWindows(ws);
    forall i | 0 <= i < |rows|
      ensures QaChecks.OhlcSound(rows[i].Cells(p))
    {
      assert rows[i] == ExportWindow(ws[i]);
      var w := ws[i];
      assert w == EventWindows.MakeWindow(holidays, lookup, events[i]);
    }
  }
}

=== FILE: qa.dfy ===
/**
  The QA validators run over the exported tables: date ordering and OHLC consistency
  of the event windows, the LONG/SHORT sign rule of the signals, the return
  arithmetic of the trades, and the verdict that only issues, never warnings, fail.

  Where a cell is kept as an `Option` (window prices, the R1 and Gap2 of a signal,
  the t1_close of a trade), a comparison against an absent cell is false, as with
  pandas, so such a cell never raises a finding by itself. The other trade numbers
  are plain reals.
*/
module QaChecks {
  import opened Wrappers
  import opened TradingCalendar

  /** The tolerance of every price and return comparison. */
  const Tolerance: real := 0.0001

  /** The open/high/low/close cells of one anchor in the window table. */
  datatype PriceCells = PriceCells(open: Option<real>, high: Option<real>, low: Option<real>, close: Option<real>)

  datatype WindowRow = WindowRow(t0Date: Date, t1Date: Date, t2Date: Date, t0: PriceCells, t1: PriceCells, t2: PriceCells)
  {
    function Cells(p: Anchor): PriceCells {
      match p
      case T0 => t0
      case T1 => t1
      case T2 => t2
    }
  }

  datatype SignalRow = SignalRow(signal: string, r1: Option<real>, gap2: Option<real>)

  datatype TradeRow = TradeRow(
    symbol: string,
    earningsDate: Date,
    signal: string,
    entryPrice: real,
    targetPrice: real,
    exitPrice: real,
    hitTarget: bool,
    grossReturn: real,
    costBps: real,
    netReturn: real,
    t1Close: Option<real>)

  /** What a check reports; per-trade findings carry the trade's row number. */
  datatype Finding =
    | MissingFile(path: string)
    | ExportProblem(detail: string)
    | DateOrderingViolations(count: nat)
    | OhlcViolations(prefix: Anchor, count: nat)
    | SignalsFileMissing
    | LongRuleViolations(count: nat)
    | ShortRuleViolations(count: nat)
    | TargetMismatches(count: nat)
    | HitExitMismatch(row: nat, symbol: string, earningsDate: Date)
    | ReturnMathError(row: nat, symbol: string, earningsDate: Date)
    | InconsistentCosts(values: set<real>)
    | NetReturnError(row: nat, symbol: string, earningsDate: Date)
    | UnknownSessionExclusions(count: nat)
  {
    /** Findings of the data-quality check, which only ever warn. */
    predicate IsDataQuality() {
      DateOrderingViolations? || OhlcViolations?
    }

    /** Findings of the trade check. */
    predicate IsTradeCheck() {
      TargetMismatches? || HitExitMismatch? || ReturnMathError? || InconsistentCosts? || NetReturnError?
    }

    /** The stage of the trade check that reports this finding, in reporting order. */
    function TradeStage(): nat {
      if TargetMismatches? then 0
      else if HitExitMismatch? || ReturnMathError? then 1
      else if InconsistentCosts? then 2
      else 3
    }
  }

  function Abs(x: real): real {
    if x < 0.0 then -x else x
  }

  /** Two numbers differ by more than the tolerance. */
  predicate Differ(a: real, b: real) {
    Abs(a - b) > Tolerance
  }

  // ---------------------------------------------------------------------------
  // Data quality of the event windows.

  /** A row violating t0 <= t1 < t2. */
  predicate DateOrderBroken(w: WindowRow)
    ensures DateOrderBroken(w) <==> !(w.t0Date <= w.t1Date < w.t2Date)
  {
    w.t0Date > w.t1Date || w.t1Date >= w.t2Date
  }

  function CountDateOrderBroken(rows: seq<WindowRow>): nat {
    if |rows| == 0 then 0
    else CountDateOrderBroken(rows[..|rows| - 1]) + (if DateOrderBroken(rows[|rows| - 1]) then 1 else 0)
  }

  lemma {:induction false} NoDateOrderBrokenIff(rows: seq<WindowRow>)
    ensures CountDateOrderBroken(rows) <= |rows|
    ensures CountDateOrderBroken(rows) == 0 <==>
      forall i :: 0 <= i < |rows| ==> rows[i].t0Date <= rows[i].t1Date < rows[i].t2Date
  {
    if |rows| > 0 {
      var init := rows[..|rows| - 1];
      NoDateOrderBrokenIff(init);
      assert forall i :: 0 <= i < |init| ==> init[i] == rows[i];
    }
  }

  /** A finding exactly when some row breaks t0 <= t1 < t2; it reports how many do. */
  function DateOrderingFindings(rows: seq<WindowRow>): (r: seq<Finding>)
    ensures r == [] <==> forall i :: 0 <= i < |rows| ==> rows[i].t0Date <= rows[i].t1Date < rows[i].t2Date
    ensures r != [] ==> r == [DateOrderingViolations(CountDateOrderBroken(rows))]
                        && 0 < CountDateOrderBroken(rows) <= |rows|
  {
    NoDateOrderBrokenIff(rows);
    var n := CountDateOrderBroken(rows);
    if n > 0 then [DateOrderingViolations(n)] else []
  }

  predicate FullyPriced(c: PriceCells) {
    c.open.Some? && c.high.Some? && c.low.Some? && c.close.Some?
  }

  /** A fully priced bar whose low is above its open or close, or high below them. */
  predicate OhlcBroken(c: PriceCells)
    ensures OhlcBroken(c) <==> !OhlcSound(c)
  {
    && FullyPriced(c)
    && (|| c.low.value > c.open.value
        || c.low.value > c.close.value
        || c.high.value < c.open.value
        || c.high.value < c.close.value)
  }

  /** Low <= open, close <= high, where all four prices are present. */
  predicate OhlcSound(c: PriceCells) {
    FullyPriced(c) ==>
      && c.low.value <= c.open.value <= c.high.value
      && c.low.value <= c.close.value <= c.high.value
  }

  function CountOhlcBroken(rows: seq<WindowRow>, p: Anchor): nat {
    if |rows| == 0 then 0
    else CountOhlcBroken(rows[..|rows| - 1], p) + (if OhlcBroken(rows[|rows| - 1].Cells(p)) then 1 else 0)
  }

  lemma {:induction false} NoOhlcBrokenIff(rows: seq<WindowRow>, p: Anchor)
    ensures CountOhlcBroken(rows, p) <= |rows|
    ensures CountOhlcBroken(rows, p) == 0 <==> forall i :: 0 <= i < |rows| ==> OhlcSound(rows[i].Cells(p))
  {
    if |rows| > 0 {
      var init := rows[..|rows| - 1];
      NoOhlcBrokenIff(init, p);
      assert forall i :: 0 <= i < |init| ==> init[i] == rows[i];
    }
  }

  /** A finding for an anchor exactly when some fully priced bar there is inconsistent. */
  function OhlcFindings(rows: seq<WindowRow>, p: Anchor): (r: seq<Finding>)
    ensures r == [] <==> forall i :: 0 <= i < |rows| ==> OhlcSound(rows[i].Cells(p))
    ensures r != [] ==> r == [OhlcViolations(p, CountOhlcBroken(rows, p))]
                        && 0 < CountOhlcBroken(rows, p) <= |rows|
  {
    NoOhlcBrokenIff(rows, p);
    var n := CountOhlcBroken(rows, p);
    if n > 0 then [OhlcViolations(p, n)] else []
  }

  /** The date/OHLC part of the data-quality check; no window table, no findings. */
  function DataQualityFindings(windows: Option<seq<WindowRow>>): (r: seq<Finding>)
    ensures forall f :: f in r ==> f.IsDataQuality()
    ensures windows.None? ==> r == []
    ensures windows.Some? ==>
      (r == [] <==>
        forall i :: 0 <= i < |windows.value| ==>
          && windows.value[i].t0Date <= windows.value[i].t1Date < windows.value[i].t2Date
          && OhlcSound(windows.value[i].t0)
          && OhlcSound(windows.value[i].t1)
          && OhlcSound(windows.value[i].t2))
    ensures windows.Some? ==>
      forall n :: DateOrderingViolations(n) in r <==> n == CountDateOrderBroken(windows.value) > 0
    ensures windows.Some? ==>
      forall p, n :: OhlcViolations(p, n) in r <==> n == CountOhlcBroken(windows.value, p) > 0
  {
    match windows
    case None => []
    case Some(rows) =>
      DateOrderingFindings(rows) + OhlcFindings(rows, T0) + OhlcFindings(rows, T1) + OhlcFindings(rows, T2)
  }

  // ---------------------------------------------------------------------------
  // The sign rule of the signals.

  /** `x <= bound`, false when the cell is absent. */
  predicate AtMost(x: Option<real>, bound: real) {
    x.Some? && x.value <= bound
  }

  /** `x >= bound`, false when the cell is absent. */
  predicate AtLeast(x: Option<real>, bound: real) {
    x.Some? && x.value >= bound
  }

  /**
    A LONG row with R1 <= 0 or Gap2 >= 0. With both values present this is exactly
    a LONG row that fails R1 > 0 and Gap2 < 0; rows of other labels never break it.
  */
  predicate LongRuleBroken(s: SignalRow)
    ensures s.signal != "LONG" ==> !LongRuleBroken(s)
    ensures s.signal == "LONG" && s.r1.Some? && s.gap2.Some? ==>
      (LongRuleBroken(s) <==> !(s.r1.value > 0.0 && s.gap2.value < 0.0))
    ensures s.r1.None? && s.gap2.None? ==> !LongRuleBroken(s)
  {
    s.signal == "LONG" && (AtMost(s.r1, 0.0) || AtLeast(s.gap2, 0.0))
  }

  /** The mirror image for SHORT rows: R1 >= 0 or Gap2 <= 0. */
  predicate ShortRuleBroken(s: SignalRow)
    ensures s.signal != "SHORT" ==> !ShortRuleBroken(s)
    ensures s.signal == "SHORT" && s.r1.Some? && s.gap2.Some? ==>
      (ShortRuleBroken(s) <==> !(s.r1.value < 0.0 && s.gap2.value > 0.0))
    ensures s.r1.None? && s.gap2.None? ==> !ShortRuleBroken(s)
  {
    s.signal == "SHORT" && (AtLeast(s.r1, 0.0) || AtMost(s.gap2, 0.0))
  }

  function CountLongBroken(rows: seq<SignalRow>): nat {
    if |rows| == 0 then 0
    else CountLongBroken(rows[..|rows| - 1]) + (if LongRuleBroken(rows[|rows| - 1]) then 1 else 0)
  }

  function CountShortBroken(rows: seq<SignalRow>): nat {
    if |rows| == 0 then 0
    else CountShortBroken(rows[..|rows| - 1]) + (if ShortRuleBroken(rows[|rows| - 1]) then 1 else 0)
  }

  lemma {:induction false} SignCountsZeroIff(rows: seq<SignalRow>)
    ensures CountLongBroken(rows) == 0 <==> forall i :: 0 <= i < |rows| ==> !LongRuleBroken(rows[i])
    ensures CountShortBroken(rows) == 0 <==> forall i :: 0 <= i < |rows| ==> !ShortRuleBroken(rows[i])
  {
    if |rows| > 0 {
      var init := rows[..|rows| - 1];
      SignCountsZeroIff(init);
      assert forall i :: 0 <= i < |init| ==> init[i] == rows[i];
    }
  }

  /**
    The sign-rule check: an issue when the signal table is missing; otherwise one
    finding for LONG rows with R1 <= 0 or Gap2 >= 0 and one for SHORT rows with
    R1 >= 0 or Gap2 <= 0, each with its count, when there are such rows.
  */
  function SignalRuleFindings(signals: Option<seq<SignalRow>>): (r: seq<Finding>)
    ensures forall f :: f in r ==> f.SignalsFileMissing? || f.LongRuleViolations? || f.ShortRuleViolations?
    ensures signals.None? ==> r == [SignalsFileMissing]
    ensures signals.Some? ==>
      (r == [] <==> forall i :: 0 <= i < |signals.value| ==>
         !LongRuleBroken(signals.value[i]) && !ShortRuleBroken(signals.value[i]))
    ensures signals.Some? ==>
      forall f :: f in r ==>
        || (f.LongRuleViolations? && f.count == CountLongBroken(signals.value) > 0)
        || (f.ShortRuleViolations? && f.count == CountShortBroken(signals.value) > 0)
    ensures signals.Some? ==>
      forall n :: LongRuleViolations(n) in r <==> n == CountLongBroken(signals.value) > 0
    ensures signals.Some? ==>
      forall n :: ShortRuleViolations(n) in r <==> n == CountShortBroken(signals.value) > 0
  {
    match signals
    case None => [SignalsFileMissing]
    case Some(rows) =>
      SignCountsZeroIff(rows);
      var longs := CountLongBroken(rows);
      var shorts := CountShortBroken(rows);
      (if longs > 0 then [LongRuleViolations(longs)] else [])
        + (if shorts > 0 then [ShortRuleViolations(shorts)] else [])
  }

  /**
    Rows classified by the threshold rule (LONG needs R1 > threshold and Gap2 < 0,
    SHORT needs R1 < -threshold and Gap2 > 0) pass the sign-rule check.
  */
  lemma ThresholdSignalsPass(rows: seq<SignalRow>, threshold: real)
    requires threshold >= 0.0
    requires forall i :: 0 <= i < |rows| && rows[i].signal == "LONG" ==>
      rows[i].r1.Some? && rows[i].gap2.Some? && rows[i].r1.value > threshold && rows[i].gap2.value < 0.0
    requires forall i :: 0 <= i < |rows| && rows[i].signal == "SHORT" ==>
      rows[i].r1.Some? && rows[i].gap2.Some? && rows[i].r1.value < -threshold && rows[i].gap2.value > 0.0
    ensures SignalRuleFindings(Some(rows)) == []
  {
  }

  /** Only LONG and SHORT rows are ever flagged. */
  lemma OtherLabelsNeverFlagged(rows: seq<SignalRow>)
    requires forall i :: 0 <= i < |rows| ==> rows[i].signal != "LONG" && rows[i].signal != "SHORT"
    ensures SignalRuleFindings(Some(rows)) == []
  {
  }

  // ---------------------------------------------------------------------------
  // The trade checks.

  /** The target differs from a present t1_close by more than the tolerance. */
  predicate TargetMismatched(t: TradeRow)
    ensures TargetMismatched(t) ==> t.t1Close.Some? && t.t1Close != Some(t.targetPrice)
    ensures t.t1Close == Some(t.targetPrice) ==> !TargetMismatched(t)
  {
    t.t1Close.Some? && Differ(t.targetPrice, t.t1Close.value)
  }

  /** The gross return a hit trade should have: up from entry to target when LONG, down otherwise. */
  function ExpectedHitGross(t: TradeRow): (g: real)
    requires t.entryPrice != 0.0
    ensures t.signal == "LONG" ==> t.entryPrice * (1.0 + g) == t.targetPrice
    ensures t.signal != "LONG" ==> t.entryPrice * (1.0 - g) == t.targetPrice
  {
    if t.signal == "LONG" then (t.targetPrice - t.entryPrice) / t.entryPrice
    else (t.entryPrice - t.targetPrice) / t.entryPrice
  }

  /** The net return is off from gross less cost_bps / 10000 by more than the tolerance. */
  predicate NetMismatched(t: TradeRow)
    ensures t.netReturn == t.grossReturn - t.costBps / 10000.0 ==> !NetMismatched(t)
    ensures NetMismatched(t) ==> t.netReturn != t.grossReturn - t.costBps / 10000.0
  {
    Differ(t.netReturn, t.grossReturn - t.costBps / 10000.0)
  }

  /** Hit trades divide by their entry price. */
  predicate HitEntriesNonzero(trades: seq<TradeRow>) {
    forall i :: 0 <= i < |trades| && trades[i].hitTarget ==> trades[i].entryPrice != 0.0
  }

  function CountTargetMismatched(trades: seq<TradeRow>): nat {
    if |trades| == 0 then 0
    else CountTargetMismatched(trades[..|trades| - 1]) + (if TargetMismatched(trades[|trades| - 1]) then 1 else 0)
  }

  /** The per-trade findings of the hit-trade loop, for the first `n` trades. */
  function HitFindings(trades: seq<TradeRow>, n: nat): (r: seq<Finding>)
    requires n <= |trades| && HitEntriesNonzero(trades)
    ensures forall f :: f in r ==> f.HitExitMismatch? || f.ReturnMathError?
    ensures forall i: nat, s, d ::
      HitExitMismatch(i, s, d) in r <==>
        i < n && s == trades[i].symbol && d == trades[i].earningsDate
        && trades[i].hitTarget && Differ(trades[i].exitPrice, trades[i].targetPrice)
    ensures forall i: nat, s, d ::
      ReturnMathError(i, s, d) in r <==>
        i < n && s == trades[i].symbol && d == trades[i].earningsDate
        && trades[i].hitTarget && Differ(trades[i].grossReturn, ExpectedHitGross(trades[i]))
  {
    if n == 0 then []
    else
      var t := trades[n - 1];
      var row: nat := n - 1;
      HitFindings(trades, n - 1)
        + (if t.hitTarget && Differ(t.exitPrice, t.targetPrice)
           then [HitExitMismatch(row, t.symbol, t.earningsDate)] else [])
        + (if t.hitTarget && Differ(t.grossReturn, ExpectedHitGross(t))
           then [ReturnMathError(row, t.symbol, t.earningsDate)] else [])
  }

  /** The per-trade findings of the net-return loop, for the first `n` trades. */
  function NetFindings(trades: seq<TradeRow>, n: nat): (r: seq<Finding>)
    requires n <= |trades|
    ensures forall f :: f in r ==> f.NetReturnError?
    ensures forall i: nat, s, d ::
      NetReturnError(i, s, d) in r <==>
        i < n && s == trades[i].symbol && d == trades[i].earningsDate && NetMismatched(trades[i])
  {
    if n == 0 then []
    else
      var t := trades[n - 1];
      var row: nat := n - 1;
      NetFindings(trades, n - 1)
        + (if NetMismatched(t) then [NetReturnError(row, t.symbol, t.earningsDate)] else [])
  }

  function CostValues(trades: seq<TradeRow>): set<real> {
    set t | t in trades :: t.costBps
  }

  /**
    The trade check: nothing for a missing or empty table; otherwise, in order, the
    count of targets differing from t1_close, the exit and return checks of every
    hit trade, one finding if the cost differs between trades, and the net-return
    check of every trade.
  */
  function TradeFindings(trades: Option<seq<TradeRow>>): (r: seq<Finding>)
    requires trades.Some? ==> HitEntriesNonzero(trades.value)
    ensures trades.None? || |trades.value| == 0 ==> r == []
    ensures forall f :: f in r ==> f.IsTradeCheck()
  {
    match trades
    case None => []
    case Some(rows) =>
      if |rows| == 0 then []
      else
        TargetPart(rows) + HitFindings(rows, |rows|) + CostPart(rows) + NetFindings(rows, |rows|)
  }

  /** The target check: one finding with the number of trades whose target is off, if any. */
  function TargetPart(rows: seq<TradeRow>): seq<Finding> {
    var mismatched := CountTargetMismatched(rows);
    if mismatched > 0 then [TargetMismatches(mismatched)] else []
  }

  /** The cost check: one finding listing the distinct costs when there are several. */
  function CostPart(rows: seq<TradeRow>): seq<Finding> {
    var costs := CostValues(rows);
    if |costs| > 1 then [InconsistentCosts(costs)] else []
  }

  /**
    The trade findings come in stage order: the target finding, then the exit and
    return findings of hit trades, then the cost finding, then the net findings.
  */
  lemma TradeFindingsInOrder(rows: seq<TradeRow>)
    requires |rows| > 0 && HitEntriesNonzero(rows)
    ensures var r := TradeFindings(Some(rows));
      forall i, j :: 0 <= i < j < |r| ==> r[i].TradeStage() <= r[j].TradeStage()
  {
    StagesInOrder(TargetPart(rows), HitFindings(rows, |rows|), CostPart(rows), NetFindings(rows, |rows|));
  }

  lemma StagesInOrder(a: seq<Finding>, b: seq<Finding>, c: seq<Finding>, d: seq<Finding>)
    requires forall f :: f in a ==> f.TradeStage() == 0
    requires forall f :: f in b ==> f.TradeStage() == 1
    requires forall f :: f in c ==> f.TradeStage() == 2
    requires forall f :: f in d ==> f.TradeStage() == 3
    ensures var r := a + b + c + d;
      forall i, j :: 0 <= i < j < |r| ==> r[i].TradeStage() <= r[j].TradeStage()
  {
    var r := a + b + c + d;
    forall k | 0 <= k < |r|
      ensures r[k].TradeStage() ==
        if k < |a| then 0 else if k < |a| + |b| then 1 else if k < |a| + |b| + |c| then 2 else 3
    {
      if k < |a| {
        assert r[k] == a[k];
      } else if k < |a| + |b| {
        assert r[k] == b[k - |a|];
      } else if k < |a| + |b| + |c| {
        assert r[k] == c[k - |a| - |b|];
      } else {
        assert r[k] == d[k - |a| - |b| - |c|];
      }
    }
  }

  /** Every trade, hit or not, gets a net-return finding exactly when its net is off. */
  lemma NetReturnChecked(rows: seq<TradeRow>)
    requires |rows| > 0 && HitEntriesNonzero(rows)
    ensures forall i: nat, s, d :: NetReturnError(i, s, d) in TradeFindings(Some(rows)) <==>
      i < |rows| && s == rows[i].symbol && d == rows[i].earningsDate && NetMismatched(rows[i])
  {
  }

  /** Hit trades get an exit finding and a return finding exactly when those are off. */
  lemma HitTradesChecked(rows: seq<TradeRow>)
    requires |rows| > 0 && HitEntriesNonzero(rows)
    ensures forall i: nat, s, d :: HitExitMismatch(i, s, d) in TradeFindings(Some(rows)) <==>
      i < |rows| && s == rows[i].symbol && d == rows[i].earningsDate
      && rows[i].hitTarget && Differ(rows[i].exitPrice, rows[i].targetPrice)
    ensures forall i: nat, s, d :: ReturnMathError(i, s, d) in TradeFindings(Some(rows)) <==>
      i < |rows| && s == rows[i].symbol && d == rows[i].earningsDate
      && rows[i].hitTarget && Differ(rows[i].grossReturn, ExpectedHitGross(rows[i]))
  {
  }

  /** The cost finding lists the distinct costs, and appears exactly when there are several. */
  lemma CostConsistencyChecked(rows: seq<TradeRow>)
    requires |rows| > 0 && HitEntriesNonzero(rows)
    ensures forall v :: InconsistentCosts(v) in TradeFindings(Some(rows)) <==> v == CostValues(rows) && |v| > 1
  {
  }

  /** There is never more than one cost finding. */
  lemma CostFindingUnique(rows: seq<TradeRow>)
    requires |rows| > 0 && HitEntriesNonzero(rows)
    ensures |CostValues(rows)| > 1 ==> multiset(TradeFindings(Some(rows)))[InconsistentCosts(CostValues(rows))] == 1
  {
    var f := InconsistentCosts(CostValues(rows));
    var target, hits, costs, nets := TargetPart(rows), HitFindings(rows, |rows|), CostPart(rows), NetFindings(rows, |rows|);
    if |CostValues(rows)| > 1 {
      OccursOnce(target, hits, costs, nets, f);
    }
  }

  lemma OccursOnce(a: seq<Finding>, b: seq<Finding>, c: seq<Finding>, d: seq<Finding>, f: Finding)
    requires f !in a && f !in b && f !in d && c == [f]
    ensures multiset(a + b + c + d)[f] == 1
  {
    assert multiset(a + b + c + d) == multiset(a) + multiset(b) + multiset(c) + multiset(d);
  }

  /** A single finding counts the trades whose target differs from t1_close, if any do. */
  lemma TargetChecked(rows: seq<TradeRow>)
    requires |rows| > 0 && HitEntriesNonzero(rows)
    ensures forall n :: TargetMismatches(n) in TradeFindings(Some(rows)) <==> n == CountTargetMismatched(rows) > 0
  {
    var target, hits, costs, nets := TargetPart(rows), HitFindings(rows, |rows|), CostPart(rows), NetFindings(rows, |rows|);
    forall n
      ensures TargetMismatches(n) in target + hits + costs + nets <==> TargetMismatches(n) in target
    {
      InParts(target, hits, costs, nets, TargetMismatches(n));
      assert TargetMismatches(n) !in hits;
      assert TargetMismatches(n) !in nets;
    }
  }

  lemma InParts(a: seq<Finding>, b: seq<Finding>, c: seq<Finding>, d: seq<Finding>, f: Finding)
    ensures f in a + b + c + d <==> f in a || f in b || f in c || f in d
  {
  }
  lemma {:induction false} NoHitFindings(trades: seq<TradeRow>, n: nat)
    requires n <= |trades| && HitEntriesNonzero(trades)
    requires forall i :: 0 <= i < n && trades[i].hitTarget ==>
      !Differ(trades[i].exitPrice, trades[i].targetPrice) && !Differ(trades[i].grossReturn, ExpectedHitGross(trades[i]))
    ensures HitFindings(trades, n) == []
  {
    if n > 0 {
      NoHitFindings(trades, n - 1);
    }
  }

  lemma {:induction false} NoNetFindings(trades: seq<TradeRow>, n: nat)
    requires n <= |trades|
    requires forall i :: 0 <= i < n ==> !NetMismatched(trades[i])
    ensures NetFindings(trades, n) == []
  {
    if n > 0 {
      NoNetFindings(trades, n - 1);
    }
  }

  lemma {:induction false} NoTargetMismatch(rows: seq<TradeRow>)
    ensures CountTargetMismatched(rows) <= |rows|
    ensures CountTargetMismatched(rows) == 0 <==> forall i :: 0 <= i < |rows| ==> !TargetMismatched(rows[i])
  {
    if |rows| > 0 {
      var init := rows[..|rows| - 1];
      NoTargetMismatch(init);
      assert forall i :: 0 <= i < |init| ==> init[i] == rows[i];
    }
  }

  /** A single trade whose target is off from its t1_close fails the trade check. */
  lemma OneTargetMismatchFails(rows: seq<TradeRow>, k: nat)
    requires k < |rows| && HitEntriesNonzero(rows) && TargetMismatched(rows[k])
    ensures TargetMismatches(CountTargetMismatched(rows)) in TradeFindings(Some(rows))
    ensures TradeFindings(Some(rows)) != []
  {
    NoTargetMismatch(rows);
    TargetChecked(rows);
  }

  /**
    Trades whose numbers satisfy the simulator's equations exactly (target is t1_close,
    a hit exits at the target with the matching gross return, net is gross less the
    cost, one cost for all) raise no trade finding.
  */
  lemma ExactTradesPass(rows: seq<TradeRow>, cost: real)
    requires |rows| > 0
    requires forall i :: 0 <= i < |rows| ==>
      && rows[i].t1Close == Some(rows[i].targetPrice)
      && rows[i].costBps == cost
      && rows[i].netReturn == rows[i].grossReturn - cost / 10000.0
      && (rows[i].hitTarget ==>
            && rows[i].entryPrice != 0.0
            && rows[i].exitPrice == rows[i].targetPrice
            && rows[i].grossReturn == ExpectedHitGross(rows[i]))
    ensures TradeFindings(Some(rows)) == []
  {
    NoTargetMismatch(rows);
    NoHitFindings(rows, |rows|);
    NoNetFindings(rows, |rows|);
    assert CostValues(rows) == {cost};
  }

  // ---------------------------------------------------------------------------
  // Coverage reporting and the overall verdict.

  function CountLabel(rows: seq<SignalRow>, name: string): nat {
    if |rows| == 0 then 0
    else CountLabel(rows[..|rows| - 1], name) + (if rows[|rows| - 1].signal == name then 1 else 0)
  }

  lemma {:induction false} CountLabelPositiveIff(rows: seq<SignalRow>, name: string)
    ensures CountLabel(rows, name) <= |rows|
    ensures CountLabel(rows, name) > 0 <==> exists i :: 0 <= i < |rows| && rows[i].signal == name
  {
    if |rows| > 0 {
      var init := rows[..|rows| - 1];
      CountLabelPositiveIff(init, name);
      assert forall i :: 0 <= i < |init| ==> init[i] == rows[i];
    }
  }

  /** The label of signals excluded because their session is unknown. */
  const UnknownSessionLabel: string := "EXCLUDED_UNKNOWN_SESSION"

  /**
    An informational warning, carrying their number, exactly when some signals were
    excluded for an unknown session.
  */
  function CoverageWarnings(signals: Option<seq<SignalRow>>): (r: seq<Finding>)
    ensures forall f :: f in r ==> f.UnknownSessionExclusions? && f.count > 0
    ensures r != [] <==>
      signals.Some? && exists i :: 0 <= i < |signals.value| && signals.value[i].signal == UnknownSessionLabel
    ensures r != [] ==> r == [UnknownSessionExclusions(CountLabel(signals.value, UnknownSessionLabel))]
  {
    match signals
    case None => []
    case Some(rows) =>
      CountLabelPositiveIff(rows, UnknownSessionLabel);
      var excluded := CountLabel(rows, UnknownSessionLabel);
      if excluded > 0 then [UnknownSessionExclusions(excluded)] else []
  }

  /** What the checks read: the file-existence results and the exported tables, if present. */
  datatype QaInputs = QaInputs(
    missingFiles: seq<string>,
    exportProblems: seq<string>,
    windows: Option<seq<WindowRow>>,
    signals: Option<seq<SignalRow>>,
    trades: Option<seq<TradeRow>>)

  datatype QaReport = QaReport(issues: seq<Finding>, warnings: seq<Finding>, exitCode: int)

  predicate TradesReadable(inp: QaInputs) {
    inp.trades.Some? ==> HitEntriesNonzero(inp.trades.value)
  }

  function MissingFileFindings(paths: seq<string>): (r: seq<Finding>)
    ensures |r| == |paths|
    ensures forall i :: 0 <= i < |paths| ==> r[i] == MissingFile(paths[i])
  {
    seq(|paths|, i requires 0 <= i < |paths| => MissingFile(paths[i]))
  }

  function ExportFindings(problems: seq<string>): (r: seq<Finding>)
    ensures |r| == |problems|
    ensures forall i :: 0 <= i < |problems| ==> r[i] == ExportProblem(problems[i])
  {
    seq(|problems|, i requires 0 <= i < |problems| => ExportProblem(problems[i]))
  }

  /**
    The run: missing files, export problems, sign-rule and trade findings are issues;
    data-quality and coverage findings are warnings. The exit status is 1 exactly when
    there is an issue, so warnings never fail the run.
  */
  function RunQa(inp: QaInputs): (r: QaReport)
    requires TradesReadable(inp)
    ensures r.exitCode == 0 || r.exitCode == 1
    ensures r.exitCode == 1 <==>
      || inp.missingFiles != []
      || inp.exportProblems != []
      || inp.signals.None?
      || (exists i :: 0 <= i < |inp.signals.value| &&
            (LongRuleBroken(inp.signals.value[i]) || ShortRuleBroken(inp.signals.value[i])))
      || TradeFindings(inp.trades) != []
  {
    var issues := MissingFileFindings(inp.missingFiles)
      + ExportFindings(inp.exportProblems)
      + SignalRuleFindings(inp.signals)
      + TradeFindings(inp.trades);
    var warnings := DataQualityFindings(inp.windows) + CoverageWarnings(inp.signals);
    QaReport(issues, warnings, if issues == [] then 0 else 1)
  }

  /** Data-quality and coverage findings are reported as warnings, never as issues. */
  lemma WarningsAreNotIssues(inp: QaInputs)
    requires TradesReadable(inp)
    ensures forall f :: f in DataQualityFindings(inp.windows) ==> f in RunQa(inp).warnings
    ensures forall f :: f in CoverageWarnings(inp.signals) ==> f in RunQa(inp).warnings
    ensures forall f :: f in RunQa(inp).issues ==> !f.IsDataQuality() && !f.UnknownSessionExclusions?
  {
    var r := RunQa(inp);
    var files, exports := MissingFileFindings(inp.missingFiles), ExportFindings(inp.exportProblems);
    var signals, trades := SignalRuleFindings(inp.signals), TradeFindings(inp.trades);
    assert r.issues == files + exports + signals + trades;
    forall f | f in r.issues
      ensures !f.IsDataQuality() && !f.UnknownSessionExclusions?
    {
      if f in files || f in exports {
      } else if f in signals {
      } else {
        assert f in trades;
      }
    }
  }

  /** Whatever the window table holds, the verdict is the same. */
  lemma DataQualityNeverFails(inp: QaInputs, windows: Option<seq<WindowRow>>)
    requires TradesReadable(inp)
    ensures RunQa(inp.(windows := windows)).exitCode == RunQa(inp).exitCode
  {
  }
}

=== FILE: windows.dfy ===
/**
  Step 4 of the smoke-test pipeline: join every earnings event to the daily bars at
  its T0/T1/T2 anchors through a (symbol, date) lookup, recording a missing bar as
  absence and keeping coverage counters.
*/
module EventWindows {
  import opened Wrappers
  import opened TradingCalendar

  /** One row of the daily OHLCV table. */
  datatype Bar = Bar(symbol: string, date: Date, open: real, high: real, low: real, close: real, volume: int)

  /** The five price/volume fields a window copies from a bar. */
  datatype Quote = Quote(open: real, high: real, low: real, close: real, volume: int)

  datatype EarningsEvent = EarningsEvent(symbol: string, earningsDate: Date)

  /** One event window; an absent quote stands for five empty cells. */
  datatype EventWindow = EventWindow(
    symbol: string,
    earningsDate: Date,
    t0Date: Date,
    t1Date: Date,
    t2Date: Date,
    t0: Option<Quote>,
    t1: Option<Quote>,
    t2: Option<Quote>)
  {
    function QuoteAt(k: Anchor): Option<Quote> {
      match k
      case T0 => t0
      case T1 => t1
      case T2 => t2
    }

    /** All three closes are present. */
    predicate Complete() {
      t0.Some? && t1.Some? && t2.Some?
    }
  }

  /** The windows and the coverage statistics of one run. */
  datatype WindowBatch = WindowBatch(
    windows: seq<EventWindow>,
    missingT0: nat,
    missingT1: nat,
    missingT2: nat,
    completeWindows: nat)

  type BarKey = (string, Date)

  function KeyOf(b: Bar): BarKey {
    (b.symbol, b.date)
  }

  function QuoteOf(b: Bar): Quote {
    Quote(b.open, b.high, b.low, b.close, b.volume)
  }

  /** The keys occurring in the table. */
  function KeysOf(bars: seq<Bar>): set<BarKey> {
    set b | b in bars :: KeyOf(b)
  }

  /** No later row of `bars` than row `i` has the same key. */
  ghost predicate LastWithKey(bars: seq<Bar>, i: int)
    requires 0 <= i < |bars|
  {
    forall j :: i < j < |bars| ==> KeyOf(bars[j]) != KeyOf(bars[i])
  }

  /** Every row that is the last with its key is what `m` holds for that key. */
  ghost predicate HoldsLastRows(bars: seq<Bar>, m: map<BarKey, Bar>) {
    forall i :: 0 <= i < |bars| && LastWithKey(bars, i) ==> KeyOf(bars[i]) in m && m[KeyOf(bars[i])] == bars[i]
  }

  /**
    The (symbol, date) lookup, filled row by row: a later row overwrites an earlier
    one with the same key, so each key of the table maps to its last row.
  */
  function BuildLookup(bars: seq<Bar>): (m: map<BarKey, Bar>)
    ensures m.Keys == KeysOf(bars)
    ensures HoldsLastRows(bars, m)
  {
    if |bars| == 0 then map[]
    else
      var rest := bars[..|bars| - 1];
      var last := bars[|bars| - 1];
      assert bars == rest + [last];
      KeysOfAppend(rest, last);
      LookupStep(rest, last, BuildLookup(rest));
      BuildLookup(rest)[KeyOf(last) := last]
  }

  lemma KeysOfAppend(rest: seq<Bar>, last: Bar)
    ensures KeysOf(rest + [last]) == KeysOf(rest) + {KeyOf(last)}
  {
    var bars := rest + [last];
    forall k | k in KeysOf(bars)
      ensures k in KeysOf(rest) + {KeyOf(last)}
    {
      var b :| b in bars && KeyOf(b) == k;
      if b != last {
        assert b in rest;
      }
    }
    assert last in bars;
    forall k | k in KeysOf(rest)
      ensures k in KeysOf(bars)
    {
      var b :| b in rest && KeyOf(b) == k;
      assert b in bars;
    }
  }

  /** Overwriting with the newest row keeps the last row of every key. */
  lemma LookupStep(rest: seq<Bar>, last: Bar, m0: map<BarKey, Bar>)
    requires HoldsLastRows(rest, m0)
    ensures HoldsLastRows(rest + [last], m0[KeyOf(last) := last])
  {
    var bars, m := rest + [last], m0[KeyOf(last) := last];
    forall i | 0 <= i < |bars| && LastWithKey(bars, i)
      ensures KeyOf(bars[i]) in m && m[KeyOf(bars[i])] == bars[i]
    {
      if i < |rest| {
        assert bars[i] == rest[i];
        assert KeyOf(bars[|rest|]) != KeyOf(bars[i]);
        forall j | i < j < |rest|
          ensures KeyOf(rest[j]) != KeyOf(rest[i])
        {
          assert rest[j] == bars[j];
        }
      }
    }
  }

  /** The quote stored for a key, or absence when the key is missing. */
  function LookupQuote(lookup: map<BarKey, Bar>, symbol: string, date: Date): (q: Option<Quote>)
    ensures q.None? <==> (symbol, date) !in lookup
    ensures q.Some? ==> q.value == QuoteOf(lookup[(symbol, date)])
  {
    if (symbol, date) in lookup then Some(QuoteOf(lookup[(symbol, date)])) else None
  }

  /**
    The window of event `e`: its anchors, and at each anchor the bar stored under
    (symbol, anchor date), or absence when the lookup misses.
  */
  function MakeWindow(holidays: set<Date>, lookup: map<BarKey, Bar>, e: EarningsEvent): (w: EventWindow)
    ensures w.symbol == e.symbol && w.earningsDate == e.earningsDate
    ensures w.t0Date <= e.earningsDate < w.t1Date < w.t2Date
    ensures w.t0Date == e.earningsDate <==> IsTradingDay(holidays, e.earningsDate)
    ensures w.t0.None? <==> (e.symbol, w.t0Date) !in lookup
    ensures w.t1.None? <==> (e.symbol, w.t1Date) !in lookup
    ensures w.t2.None? <==> (e.symbol, w.t2Date) !in lookup
    ensures w.t0.Some? ==> w.t0.value == QuoteOf(lookup[(e.symbol, w.t0Date)])
    ensures w.t1.Some? ==> w.t1.value == QuoteOf(lookup[(e.symbol, w.t1Date)])
    ensures w.t2.Some? ==> w.t2.value == QuoteOf(lookup[(e.symbol, w.t2Date)])
  {
    var a := GetAnchors(holidays, e.earningsDate);
    EventWindow(
      e.symbol, e.earningsDate, a.t0, a.t1, a.t2,
      LookupQuote(lookup, e.symbol, a.t0),
      LookupQuote(lookup, e.symbol, a.t1),
      LookupQuote(lookup, e.symbol, a.t2))
  }

  /** Number of windows among the first `n` whose quote at anchor `k` is absent. */
  function MissingUpTo(ws: seq<EventWindow>, k: Anchor, n: nat): nat
    requires n <= |ws|
  {
    if n == 0 then 0
    else MissingUpTo(ws, k, n - 1) + (if ws[n - 1].QuoteAt(k).None? then 1 else 0)
  }

  /** Number of windows among the first `n` with all three quotes present. */
  function CompleteUpTo(ws: seq<EventWindow>, n: nat): nat
    requires n <= |ws|
  {
    if n == 0 then 0
    else CompleteUpTo(ws, n - 1) + (if ws[n - 1].Complete() then 1 else 0)
  }

  function CountMissing(ws: seq<EventWindow>, k: Anchor): nat {
    MissingUpTo(ws, k, |ws|)
  }

  function CountComplete(ws: seq<EventWindow>): nat {
    CompleteUpTo(ws, |ws|)
  }

  /** One window per event, in input order. */
  function MakeWindows(holidays: set<Date>, lookup: map<BarKey, Bar>, events: seq<EarningsEvent>): (ws: seq<EventWindow>)
    ensures |ws| == |events|
    ensures forall i :: 0 <= i < |events| ==> ws[i] == MakeWindow(holidays, lookup, events[i])
  {
    seq(|events|, i requires 0 <= i < |events| => MakeWindow(holidays, lookup, events[i]))
  }

  /** The coverage counters, tallied window by window. */
  method TallyCoverage(windows: seq<EventWindow>)
    returns (missingT0: nat, missingT1: nat, missingT2: nat, complete: nat)
    ensures missingT0 == CountMissing(windows, T0)
    ensures missingT1 == CountMissing(windows, T1)
    ensures missingT2 == CountMissing(windows, T2)
    ensures complete == CountComplete(windows)
  {
    missingT0, missingT1, missingT2, complete := 0, 0, 0, 0;
    var i := 0;
    while i < |windows|
      invariant 0 <= i <= |windows|
      invariant missingT0 == MissingUpTo(windows, T0, i)
      invariant missingT1 == MissingUpTo(windows, T1, i)
      invariant missingT2 == MissingUpTo(windows, T2, i)
      invariant complete == CompleteUpTo(windows, i)
    {
      var w := windows[i];
      missingT0 := missingT0 + (if w.t0.None? then 1 else 0);
      missingT1 := missingT1 + (if w.t1.None? then 1 else 0);
      missingT2 := missingT2 + (if w.t2.None? then 1 else 0);
      complete := complete + (if w.Complete() then 1 else 0);
      i := i + 1;
    }
  }

  /**
    Step 4 as a whole: nothing is built when either table is empty; otherwise one
    window per event in input order, with the missed lookups per anchor and the
    complete windows counted.
  */
  method BuildEventWindows(holidays: set<Date>, events: seq<EarningsEvent>, bars: seq<Bar>)
    returns (r: Option<WindowBatch>)
    ensures r.None? <==> |events| == 0 || |bars| == 0
    ensures r.Some? ==>
      && |r.value.windows| == |events|
      && forall i :: 0 <= i < |events| ==>
           r.value.windows[i] == MakeWindow(holidays, BuildLookup(bars), events[i])
    ensures r.Some? ==>
      && r.value.missingT0 == CountMissing(r.value.windows, T0)
      && r.value.missingT1 == CountMissing(r.value.windows, T1)
      && r.value.missingT2 == CountMissing(r.value.windows, T2)
      && r.value.completeWindows == CountComplete(r.value.windows)
  {
    if |events| == 0 || |bars| == 0 {
      return None;
    }
    var windows := MakeWindows(holidays, BuildLookup(bars), events);
    var missingT0, missingT1, missingT2, complete := TallyCoverage(windows);
    return Some(WindowBatch(windows, missingT0, missingT1, missingT2, complete));
  }

  lemma {:induction false} CoverageBoundsUpTo(ws: seq<EventWindow>, n: nat)
    requires n <= |ws|
    ensures CompleteUpTo(ws, n) <= n
    ensures MissingUpTo(ws, T0, n) <= n && MissingUpTo(ws, T1, n) <= n && MissingUpTo(ws, T2, n) <= n
    ensures CompleteUpTo(ws, n) >= n - (MissingUpTo(ws, T0, n) + MissingUpTo(ws, T1, n) + MissingUpTo(ws, T2, n))
  {
    if n > 0 {
      CoverageBoundsUpTo(ws, n - 1);
    }
  }

  /**
    Coverage bounds: every counter is at most the number of windows, and every window
    that is not complete misses at least one anchor.
  */
  lemma CoverageBounds(ws: seq<EventWindow>)
    ensures CountComplete(ws) <= |ws|
    ensures CountMissing(ws, T0) <= |ws| && CountMissing(ws, T1) <= |ws| && CountMissing(ws, T2) <= |ws|
    ensures CountComplete(ws) >= |ws| - (CountMissing(ws, T0) + CountMissing(ws, T1) + CountMissing(ws, T2))
  {
    CoverageBoundsUpTo(ws, |ws|);
  }

  /** A built window's anchors are trading days, T1 the one right after T0. */
  lemma BuiltWindowDates(holidays: set<Date>, lookup: map<BarKey, Bar>, e: EarningsEvent)
    ensures var w := MakeWindow(holidays, lookup, e);
      && IsTradingDay(holidays, w.t0Date) && IsTradingDay(holidays, w.t1Date) && IsTradingDay(holidays, w.t2Date)
      && w.t1Date == NextTradingDay(holidays, w.t0Date, 1)
      && w.t2Date == NextTradingDay(holidays, w.t1Date, 1)
  {
    AnchorsAreConsecutive(holidays, e.earningsDate);
  }
}

=== FILE: wrappers.dfy ===
/** Optional values: the model's stand-in for a missing table cell (None, NaN, NaT). */
module Wrappers {

  datatype Option<+T> = None | Some(value: T)
}
